=== FILE: README.md ===
# Vulkan bootstrap decisions, modelled in Dafny

This project models the decision rules inside the start-up code of a small
Vulkan "hello triangle" application (`src/main.rs`). The code creates an
instance, binds an X11 surface, picks a physical device, creates a logical
device and a swapchain, and tears everything down in `Drop`. Most of it is
foreign calls into the driver. The model keeps the pure logic between those
calls. Each driver query becomes an input value: a list of queue-family
records with their present-support answer, a list of surface formats, a
surface-capabilities record, or a list of names.

Modules, one per component of the bootstrap:

- `Wrappers` holds `Option` and `Result`. A failure `Result` carries the
  `Vk.Fatal` condition that makes the program panic.
- `Vk` holds the API value types, the enum codes the code compares against
  (`R8G8B8A8_UNORM` = 37, `SRGB_NONLINEAR` = 0, `MAILBOX` = 1, `FIFO` = 2,
  graphics bit 0x1), the window size 800x600 and the `u32` bound.
- `NameChecks` holds the device-extension check (a set difference) and the
  validation-layer check (a nested search behind an empty-list guard).
- `QueueFamilies` holds the queue-family scan with early exit. Its result
  is described without the scan, and that description is shown to
  determine the result.
- `DeviceSelection` holds device suitability, including its panics, and
  first-match device selection.
- `Swapchain` holds format, present-mode, extent, image-count and
  sharing-mode choice, plus the assembled swapchain request. These follow
  `VkSurfaceCapabilitiesKHR` and `VkPresentModeKHR` in the Surface Queries
  and WSI Swapchain sections of the Window System Integration chapter of the
  Vulkan 1.1 specification.
- `LogicalDevice` holds queue-family deduplication, the queue create-infos
  and the queue handles fetched afterwards.
- `Teardown` is a state machine over destroy events. It accepts exactly the
  orders that destroy every resource after the resources created from it,
  and the order used by `Drop` is one of them.
- `Scenarios` works through concrete examples: the extent and image-count
  cases, a three-family device, and a device list where only the third
  device qualifies.

The queue-family scan `find_queue_family` overwrites the graphics index with
every graphics family it sees until both indices are set
(src/main.rs:310-314). So the index is the last graphics family before the
stop point, not the first; `Scenarios.GraphicsIndexIsOverwritten` shows a
device where the two differ.

Every panic of the code that the model covers is a `Failure` carrying a `Vk.Fatal`.

## Model

| member | source | states |
|---|---|---|
| NameChecks.RemoveAvailable | src/main.rs:356-362 | removing each available name from the required set leaves exactly the required names that are not available |
| NameChecks.CheckDeviceExtensionSupport | src/main.rs:337-364 | the device supports the extensions iff every name in DEVICE_EXTENSIONS is among the reported names |
| NameChecks.ExtensionSupportIgnoresOrderAndDuplicates | src/main.rs:356-363 | two reports with the same set of names get the same answer, so order and repetition do not matter |
| NameChecks.FindLayer | src/main.rs:633-639 | the inner search with break finds a layer iff its name is in the reported list |
| NameChecks.FindAllLayers | src/main.rs:631-645 | the outer loop answers true iff every required name is reported, and false at the first missing one |
| NameChecks.CheckValidationLayersSupport | src/main.rs:616-646 | false when no layer is reported; otherwise true iff every required layer is reported |
| NameChecks.LayerGuardIsSubsumed | src/main.rs:620-623 | with the one-element required list, the empty-list early exit never changes the answer, so the check is exactly the subset test |
| NameChecks.EnabledInstanceLayers | src/main.rs:181-183 | instance creation fails with MissingValidationLayer iff some required layer is missing; on success every required layer is enabled and every enabled layer is available |
| QueueFamilies.ScanFrom | src/main.rs:309-331 | continuing the scan from family i keeps the recorded indices the last capable ones, and ends at the shortest complete prefix or at the end of the list |
| QueueFamilies.FindQueueFamily | src/main.rs:300-335 | the result is the last graphics family and the last present family (queue_count > 0) before the stop point; the stop point is the first index where both are known, or the end of the list |
| QueueFamilies.FoundFamiliesAreCapable | src/main.rs:310-327 | a recorded graphics (present) index is below the family count and names a family with queues and the GRAPHICS flag (with surface support) |
| QueueFamilies.CompleteIffBothExist | src/main.rs:105-107 | is_complete holds of the scan's result iff the device has some graphics-capable family and some present-capable family |
| QueueFamilies.GraphicsIndexIsLastBeforeStop | src/main.rs:309-331 | in a complete result, one index is the stop index; no graphics (present) family lies after the graphics (present) index up to it; no shorter prefix was complete |
| QueueFamilies.ScanOutcomeIsUnique | src/main.rs:300-335 | the description of the outcome determines the indices, so it is a full specification of the scan |
| DeviceSelection.IsDeviceSuitable | src/main.rs:265-298 | the answer is true iff the device type is known, a graphics and a present family exist, all required extensions are reported, and formats and present modes are non-empty; among the modelled panics, it panics with UnknownDeviceType on an unknown device type, with ExtensionQueryFailed on a failed extension query, and with SurfaceQueryFailed on a failed surface query made after the extensions passed |
| DeviceSelection.AdequacyNotQueriedWithoutExtensions | src/main.rs:291-296 | without the required extensions the device is unsuitable whatever the surface report is, even a failing one, because the surface is not queried |
| DeviceSelection.PickFrom | src/main.rs:257-262 | the loop from device i returns the first suitable device at or after i, NoSuitableDevice iff all of them are rejected, or the panic of the first device whose judgement panics |
| DeviceSelection.PickPhysicalDevice | src/main.rs:244-263 | the chosen device is suitable and every earlier one was rejected; the result is NoSuitableDevice iff every device is rejected; any other failure is the panic of a device preceded only by rejected ones |
| DeviceSelection.PickIgnoresLaterDevices | src/main.rs:257-261 | first match wins: changing the devices after the chosen one does not change the choice |
| Swapchain.FindPreferredFormat | src/main.rs:395-401 | the search returns a listed R8G8B8A8_UNORM / SRGB_NONLINEAR format, or nothing when none is listed |
| Swapchain.ChooseSwapchainFormat | src/main.rs:391-405 | the preferred pair when it is listed, otherwise the first listed format; always a listed format; an empty list panics |
| Swapchain.ChooseSwapchainPresentMode | src/main.rs:407-416 | MAILBOX iff MAILBOX is offered, otherwise FIFO, even for an empty list |
| Swapchain.ClampAxis | src/main.rs:423-432 | the preferred size clamped into [min, max], and max when min > max |
| Swapchain.ChooseSwapExtent | src/main.rs:418-435 | a current extent with a defined width is returned verbatim, height included; otherwise 800x600 is clamped per axis into the surface's extent range |
| Swapchain.ImageCount | src/main.rs:450-455 | min+1 when max is 0; min+1 when that fits under a nonzero max, and exactly the nonzero max when min+1 exceeds it; at least 1; at least min when the bounds are consistent |
| Swapchain.ChooseSharingMode | src/main.rs:478-488 | EXCLUSIVE iff the two optional indices are equal; otherwise CONCURRENT over exactly [graphics, present], which are distinct, or a panic when one index is missing |
| Swapchain.SwapchainRequest | src/main.rs:443-488 | the request succeeds iff the surface query works, some format is listed and the sharing mode is decidable; a successful request carries the format, extent and image count the individual rules choose (a listed format, a defined current extent verbatim, between 1 and min+1 images), MAILBOX iff it is offered, EXCLUSIVE sharing iff the scanned graphics and present indices are equal, the sharing mode chosen from the scanned indices, so concurrent sharing is over exactly the scanned graphics family and a different scanned present family |
| LogicalDevice.UniqueQueueFamilies | src/main.rs:521-523 | the set holds both families and has one element when they are equal and two otherwise |
| LogicalDevice.QueueCreateInfos | src/main.rs:525-535 | exactly one create-info per distinct family, each for one queue, with no family twice |
| LogicalDevice.LogicalDeviceRequest | src/main.rs:517-571 | the request exists iff the scan is complete; its create-infos are those of the scanned graphics and present families; queue 0 of each scanned family is fetched; both fetched queues lie in requested families and are the same queue iff a single family was requested; the validation layers and the swapchain extension are enabled |
| LogicalDevice.SharingMatchesQueueRequests | src/main.rs:521-535 | the swapchain shares concurrently iff two queue families were requested for the device, and then over exactly those families |
| Teardown.Destroy | src/main.rs:663-675 | one destroy succeeds iff the resource is live and nothing live was created from it, and removes just that resource |
| Teardown.RunAcceptsLegalOrders | src/main.rs:663-675 | a sequence of destroys succeeds iff no resource is destroyed twice or while a child is alive; what remains is what was not destroyed |
| Teardown.DropIsLegalTeardown | src/main.rs:663-675 | Drop destroys swapchain, device, surface, debug messenger and instance, each exactly once, children before parents, and leaves nothing alive |
| Teardown.CompleteTeardownOrders | src/main.rs:663-675 | a teardown naming each resource once succeeds iff every resource comes after everything created from it |
| Scenarios.ExtentExamples | src/main.rs:418-435 | an undefined extent with bounds 100..2000 gives 800x600; a defined 1024x768 is kept whatever the bounds; only the width is compared with the sentinel |
| Scenarios.ImageCountExamples | src/main.rs:450-455 | min 2 and max 0 gives 3; min 2 and max 2 gives 2 |
| Scenarios.QueueFamilyExamples | src/main.rs:309-331 | graphics on family 1 and present on family 2 give (1, 2) and concurrent sharing; one family doing both gives (0, 0) and exclusive sharing |
| Scenarios.GraphicsIndexIsOverwritten | src/main.rs:310-314 | with two graphics families before the present one, the second graphics family is recorded |
| Scenarios.ThirdDeviceIsPicked | src/main.rs:257-262 | when only the third device qualifies it is picked, and a panicking fourth device is never judged; a panicking third device aborts the selection |

## Left out

- Instance, surface, logical-device, swapchain and debug-messenger creation are foreign calls (src/main.rs:18-32, 180-227, 490-501, 564-587). The model stops at the request it would pass to the driver.
- Enumerating physical devices and instance layers, and fetching swapchain images, are foreign calls. The results are inputs. The panic when enumeration itself fails (src/main.rs:248-252, 617-619) is not modelled.
- The debug callback, the messenger create-info and all console output are logging with no effect on control flow (src/main.rs:68-91, 253-256, 281-285, 649-661).
- Device, extension and layer names are taken as valid UTF-8; the panic of `vk_to_string` on other names (src/main.rs:38) is not modelled.
- Window creation, the event loop, `draw_frame` and `main` are UI plumbing and an empty stub.
- The `f32` queue priority (src/main.rs:525) is a float with no logic. Only the number of priorities, one, is modelled.
- The temporary vector whose pointer is stored at src/main.rs:481-485 dangles after that statement. This is an FFI lifetime issue. Only the sharing-mode decision is modelled.
- Swapchain.ImageCount: requires `minImageCount < 0xFFFFFFFF`. At the maximum, the `u32` addition `min_image_count + 1` would panic in a debug build and wrap to 0 in a release build. Neither is modelled, and no conforming driver reports that minimum.
- Swapchain.SwapchainRequest: requires, through `CountFits`, that a reported surface has `minImageCount < 0xFFFFFFFF`, for the same reason as Swapchain.ImageCount.
- LogicalDevice.QueueCreateInfos: the source iterates a `HashSet`, whose order is unspecified. The model lists the graphics family first. Its contract only states order-independent facts.
- Queue-family indices are unbounded naturals. The source's `index as u32` cast is lossless, because Vulkan reports the family count as a `u32`.
- The values of `VkSwapchainCreateInfoKHR` that never vary (colour-attachment usage, opaque composite alpha, one array layer, clipping, no old swapchain) are not part of the model's request.
- A panic part-way through start-up destroys nothing, because the handles are plain values with no destructor. The teardown model covers only `Drop` of a fully built application.

=== FILE: device_selection.dfy ===
/** Physical-device suitability and selection.  A device is described by
    what the driver reports for it and the bound surface; a query whose
    `.expect` would panic is a missing (None) report. */
module DeviceSelection {
  import opened Wrappers
  import opened Vk
  import opened NameChecks
  import opened QueueFamilies

  datatype PhysicalDevice = PhysicalDevice(
    deviceType: int,
    queueFamilies: seq<QueueFamily>,
    extensions: Option<seq<string>>,
    swapchainSupport: Option<SwapChainSupportDetails>)

  /** The swapchain can be built: at least one surface format and at least
      one present mode. */
  predicate Adequate(support: SwapChainSupportDetails) {
    |support.formats| > 0 && |support.presentModes| > 0
  }

  /** Suitability stated from the reports alone: a known device type, some
      graphics and some present family, every required device extension, and
      an adequate swapchain. */
  ghost predicate Suitable(d: PhysicalDevice) {
    && KnownDeviceType(d.deviceType)
    && (exists i :: 0 <= i < |d.queueFamilies| && Supports(d.queueFamilies[i], Graphics))
    && (exists j :: 0 <= j < |d.queueFamilies| && Supports(d.queueFamilies[j], Present))
    && d.extensions.Some? && AllAvailable(DEVICE_EXTENSIONS, d.extensions.value)
    && d.swapchainSupport.Some? && Adequate(d.swapchainSupport.value)
  }

  /** The judgement panics: on an unknown device type, on a failed extension
      query, or on a failed surface query, which is made only when the
      extensions are supported. */
  ghost predicate Panics(d: PhysicalDevice) {
    || !KnownDeviceType(d.deviceType)
    || d.extensions.None?
    || (AllAvailable(DEVICE_EXTENSIONS, d.extensions.value) && d.swapchainSupport.None?)
  }

  /** `is_device_suitable`: queue completeness, extension support and
      swapchain adequacy, where adequacy is false without a query when the
      extensions are missing. */
  function IsDeviceSuitable(d: PhysicalDevice): (r: Result<bool, Fatal>)
    ensures r.Failure? <==> Panics(d)
    ensures !KnownDeviceType(d.deviceType) ==> r == Failure(UnknownDeviceType(d.deviceType))
    ensures KnownDeviceType(d.deviceType) && d.extensions.None? ==> r == Failure(ExtensionQueryFailed)
    ensures (&& KnownDeviceType(d.deviceType)
             && d.extensions.Some? && AllAvailable(DEVICE_EXTENSIONS, d.extensions.value)
             && d.swapchainSupport.None?) ==> r == Failure(SurfaceQueryFailed)
    ensures r == Success(true) <==> Suitable(d)
  {
    if !KnownDeviceType(d.deviceType) then Failure(UnknownDeviceType(d.deviceType))
    else
      var indices := FindQueueFamily(d.queueFamilies);
      CompleteIffBothExist(d.queueFamilies);
      match d.extensions
      case None => Failure(ExtensionQueryFailed)
      case Some(available) =>
        var extensionsSupported := CheckDeviceExtensionSupport(available);
        if !extensionsSupported then Success(false)
        else
          match d.swapchainSupport
          case None => Failure(SurfaceQueryFailed)
          case Some(support) => Success(indices.IsComplete() && Adequate(support))
  }

  /** Without the required extensions the surface is never queried: the
      verdict is "unsuitable" whatever the surface report is, even a failing
      one. */
  lemma {:induction false} AdequacyNotQueriedWithoutExtensions(d: PhysicalDevice, other: Option<SwapChainSupportDetails>)
    requires KnownDeviceType(d.deviceType) && d.extensions.Some?
    requires !AllAvailable(DEVICE_EXTENSIONS, d.extensions.value)
    ensures IsDeviceSuitable(d) == Success(false)
    ensures IsDeviceSuitable(d.(swapchainSupport := other)) == Success(false)
  {
  }

  /** The devices before `i` were all judged unsuitable without a panic. */
  ghost predicate AllRejected(devices: seq<PhysicalDevice>, i: nat)
    requires i <= |devices|
  {
    forall j :: 0 <= j < i ==> IsDeviceSuitable(devices[j]) == Success(false)
  }

  /** The loop of `pick_physical_device` from device `i` on. */
  function PickFrom(devices: seq<PhysicalDevice>, i: nat): (r: Result<nat, Fatal>)
    requires i <= |devices|
    ensures r.Success? ==>
      && i <= r.value < |devices|
      && IsDeviceSuitable(devices[r.value]) == Success(true)
      && forall j :: i <= j < r.value ==> IsDeviceSuitable(devices[j]) == Success(false)
    ensures r == Failure(NoSuitableDevice) <==>
      forall j :: i <= j < |devices| ==> IsDeviceSuitable(devices[j]) == Success(false)
    ensures r.Failure? && r.error != NoSuitableDevice ==>
      exists k :: i <= k < |devices| && IsDeviceSuitable(devices[k]) == Failure(r.error)
        && forall j :: i <= j < k ==> IsDeviceSuitable(devices[j]) == Success(false)
    decreases |devices| - i
  {
    if i == |devices| then Failure(NoSuitableDevice)
    else
      match IsDeviceSuitable(devices[i])
      case Failure(e) => Failure(e)
      case Success(true) => Success(i)
      case Success(false) => PickFrom(devices, i + 1)
  }

  /** `pick_physical_device`: the index of the first suitable device in
      enumeration order; NoSuitableDevice when every device is unsuitable;
      the panic of the first device whose judgement panics before that. */
  function PickPhysicalDevice(devices: seq<PhysicalDevice>): (r: Result<nat, Fatal>)
    ensures r.Success? ==>
      && r.value < |devices|
      && Suitable(devices[r.value])
      && AllRejected(devices, r.value)
    ensures r == Failure(NoSuitableDevice) <==> AllRejected(devices, |devices|)
    ensures r.Failure? && r.error != NoSuitableDevice ==>
      exists k :: 0 <= k < |devices| && Panics(devices[k]) && AllRejected(devices, k)
        && IsDeviceSuitable(devices[k]) == Failure(r.error)
  {
    PickFrom(devices, 0)
  }

  /** First match wins: the devices after the chosen one are never judged,
      so replacing them changes nothing. */
  lemma {:induction false} PickIgnoresLaterDevices(devices: seq<PhysicalDevice>, others: seq<PhysicalDevice>)
    requires PickPhysicalDevice(devices).Success?
    requires var i := PickPhysicalDevice(devices).value;
      |others| > i && others[..i + 1] == devices[..i + 1]
    ensures PickPhysicalDevice(others) == PickPhysicalDevice(devices)
  {
  }
}

=== FILE: logical_device.dfy ===
/** Logical-device set-up: the queue requests `create_logical_device` builds
    from the (deduplicated) graphics and present families, and the queue
    handles it then retrieves. */
module LogicalDevice {
  import opened Wrappers
  import opened Vk
  import opened NameChecks
  import opened QueueFamilies
  import Swapchain

  /** `VkDeviceQueueCreateInfo`: a family and how many queues to create in
      it (one per entry of the one-element priority array). */
  datatype QueueCreateInfo = QueueCreateInfo(queueFamilyIndex: nat, queueCount: nat)

  /** `vkGetDeviceQueue(family, index)`: a queue is identified by both. */
  datatype QueueHandle = QueueHandle(family: nat, index: nat)

  datatype DeviceRequest = DeviceRequest(
    queueCreateInfos: seq<QueueCreateInfo>,
    enabledLayers: seq<string>,
    enabledExtensions: seq<string>,
    graphicsQueue: QueueHandle,
    presentQueue: QueueHandle)

  /** Number of queue priorities passed per family. */
  const QUEUE_PRIORITY_COUNT: nat := 1

  /** Both families inserted into a hash set. */
  function UniqueQueueFamilies(graphics: nat, present: nat): (unique: set<nat>)
    ensures graphics in unique && present in unique
    ensures |unique| == if graphics == present then 1 else 2
  {
    var unique := {graphics, present};
    assert graphics == present ==> unique == {graphics};
    unique
  }

  /** One create-info per family of a set.  The hash set's iteration order is
      unspecified; the model lists the graphics family first. */
  function QueueCreateInfos(graphics: nat, present: nat): (infos: seq<QueueCreateInfo>)
    ensures |infos| == |UniqueQueueFamilies(graphics, present)|
    ensures forall i :: 0 <= i < |infos| ==>
      infos[i].queueFamilyIndex in UniqueQueueFamilies(graphics, present) && infos[i].queueCount == QUEUE_PRIORITY_COUNT
    ensures forall f :: f in UniqueQueueFamilies(graphics, present) ==>
      exists i :: 0 <= i < |infos| && infos[i].queueFamilyIndex == f
    ensures forall i, j :: 0 <= i < j < |infos| ==> infos[i].queueFamilyIndex != infos[j].queueFamilyIndex
  {
    var unique := UniqueQueueFamilies(graphics, present);
    var infos :=
      if graphics == present then [QueueCreateInfo(graphics, QUEUE_PRIORITY_COUNT)]
      else [QueueCreateInfo(graphics, QUEUE_PRIORITY_COUNT), QueueCreateInfo(present, QUEUE_PRIORITY_COUNT)];
    assert forall f :: f in unique ==> f == graphics || f == present;
    assert infos[0].queueFamilyIndex == graphics && infos[|infos| - 1].queueFamilyIndex == present;
    infos
  }

  /** Queue `q` was requested: its family has a create-info with more than
      `q.index` queues. */
  ghost predicate Requested(infos: seq<QueueCreateInfo>, q: QueueHandle) {
    exists i :: 0 <= i < |infos| && infos[i].queueFamilyIndex == q.family && q.index < infos[i].queueCount
  }

  /** `create_logical_device` up to the driver call: re-run the queue-family
      scan, unwrap both indices (a panic when the device has no graphics or no
      present family), request one queue per distinct family with the
      validation layers and the swapchain extension, then fetch queue 0 of
      each family. */
  function LogicalDeviceRequest(families: seq<QueueFamily>): (r: Result<DeviceRequest, Fatal>)
    ensures r.Success? <==> FindQueueFamily(families).IsComplete()
    ensures r.Failure? ==> r.error == MissingQueueFamily
    ensures r.Success? ==>
      && Requested(r.value.queueCreateInfos, r.value.graphicsQueue)
      && Requested(r.value.queueCreateInfos, r.value.presentQueue)
      && (r.value.graphicsQueue == r.value.presentQueue <==> |r.value.queueCreateInfos| == 1)
      && r.value.graphicsQueue.family < |families| && Supports(families[r.value.graphicsQueue.family], Graphics)
      && r.value.presentQueue.family < |families| && Supports(families[r.value.presentQueue.family], Present)
      && r.value.enabledExtensions == DEVICE_EXTENSIONS
    ensures r.Success? ==>
      var ix := FindQueueFamily(families);
      && r.value.queueCreateInfos == QueueCreateInfos(ix.graphicsFamily.value, ix.presentFamily.value)
      && r.value.graphicsQueue == QueueHandle(ix.graphicsFamily.value, 0)
      && r.value.presentQueue == QueueHandle(ix.presentFamily.value, 0)
      && r.value.enabledLayers == REQUIRED_VALIDATION_LAYERS
  {
    var indices := FindQueueFamily(families);
    FoundFamiliesAreCapable(families);
    match (indices.graphicsFamily, indices.presentFamily)
    case (Some(g), Some(p)) =>
      var infos := QueueCreateInfos(g, p);
      assert infos[0].queueFamilyIndex == g;
      assert infos[|infos| - 1].queueFamilyIndex == p;
      Success(DeviceRequest(infos, REQUIRED_VALIDATION_LAYERS, DEVICE_EXTENSIONS, QueueHandle(g, 0), QueueHandle(p, 0)))
    case _ => Failure(MissingQueueFamily)
  }

  /** The swapchain's sharing mode and the device's queue requests agree:
      concurrent sharing exactly when two queue families were requested, and
      then over exactly the requested families. */
  lemma {:induction false} SharingMatchesQueueRequests(families: seq<QueueFamily>)
    requires FindQueueFamily(families).IsComplete()
    ensures var indices := FindQueueFamily(families);
      var sharing := Swapchain.ChooseSharingMode(indices);
      var infos := LogicalDeviceRequest(families).value.queueCreateInfos;
      && sharing.Success?
      && (sharing.value.Concurrent? <==> |infos| == 2)
      && (sharing.value.Concurrent? ==>
            forall f :: f in sharing.value.queueFamilyIndices <==>
              exists i :: 0 <= i < |infos| && infos[i].queueFamilyIndex == f)
  {
  }
}

=== FILE: name_checks.dfy ===
/** The two "are the required names available?" checks: device extensions
    (a set difference) and instance validation layers (a nested linear
    search behind an empty-list guard). */
module NameChecks {
  import opened Wrappers
  import opened Vk

  const REQUIRED_VALIDATION_LAYERS: seq<string> := ["VK_LAYER_KHRONOS_validation"]
  const DEVICE_EXTENSIONS: seq<string> := ["VK_KHR_swapchain"]

  /** Every name of `required` occurs in `available`. */
  ghost predicate AllAvailable(required: seq<string>, available: seq<string>) {
    forall n :: n in required ==> n in available
  }

  /** The names of `required` left after removing, one by one, every name of
      `available`: the `HashSet::remove` loop of the extension check. */
  function RemoveAvailable(required: set<string>, available: seq<string>): (missing: set<string>)
    ensures forall n :: n in missing <==> n in required && n !in available
  {
    if |available| == 0 then required
    else RemoveAvailable(required - {available[0]}, available[1..])
  }

  /** Device extension check: the required set minus the available names is
      empty exactly when every required extension is reported. */
  function CheckDeviceExtensionSupport(available: seq<string>): (supported: bool)
    ensures supported <==> AllAvailable(DEVICE_EXTENSIONS, available)
  {
    var missing := RemoveAvailable((set n | n in DEVICE_EXTENSIONS), available);
    assert forall n :: n in DEVICE_EXTENSIONS && n !in available ==> n in missing;
    missing == {}
  }

  /** Only the set of available names matters: neither their order nor
      repetitions change the answer. */
  lemma ExtensionSupportIgnoresOrderAndDuplicates(a: seq<string>, b: seq<string>)
    requires forall n :: n in a <==> n in b
    ensures CheckDeviceExtensionSupport(a) == CheckDeviceExtensionSupport(b)
  {
  }

  /** Inner loop of the layer check: scan the reported layers, stopping at
      the first whose name equals `name`. */
  function FindLayer(name: string, layers: seq<string>): (found: bool)
    ensures found <==> name in layers
  {
    if |layers| == 0 then false
    else if layers[0] == name then true
    else FindLayer(name, layers[1..])
  }

  /** Outer loop of the layer check: give up at the first required name not
      found. */
  function FindAllLayers(required: seq<string>, layers: seq<string>): (found: bool)
    ensures found <==> AllAvailable(required, layers)
  {
    if |required| == 0 then true
    else if !FindLayer(required[0], layers) then false
    else FindAllLayers(required[1..], layers)
  }

  /** Validation layer check: false when the instance reports no layer at
      all, otherwise true exactly when every required layer is reported. */
  function CheckValidationLayersSupport(layers: seq<string>): (supported: bool)
    ensures |layers| == 0 ==> !supported
    ensures |layers| > 0 ==> (supported <==> AllAvailable(REQUIRED_VALIDATION_LAYERS, layers))
  {
    if |layers| == 0 then false
    else FindAllLayers(REQUIRED_VALIDATION_LAYERS, layers)
  }

  /** With a non-empty required list the empty-list guard never changes the
      answer: the check is exactly the subset test. */
  lemma {:induction false} LayerGuardIsSubsumed(layers: seq<string>)
    ensures CheckValidationLayersSupport(layers) <==> AllAvailable(REQUIRED_VALIDATION_LAYERS, layers)
  {
    if |layers| == 0 {
      assert REQUIRED_VALIDATION_LAYERS[0] !in layers;
    }
  }

  /** Instance creation starts by demanding the validation layers: it panics
      when they are not available and otherwise enables exactly the required
      list. */
  function EnabledInstanceLayers(layers: seq<string>): (r: Result<seq<string>, Fatal>)
    ensures r.Failure? <==> !AllAvailable(REQUIRED_VALIDATION_LAYERS, layers)
    ensures r.Failure? ==> r.error == MissingValidationLayer
    ensures r.Success? ==> |r.value| > 0 && AllAvailable(r.value, layers)
    ensures r.Success? ==> AllAvailable(REQUIRED_VALIDATION_LAYERS, r.value)
  {
    LayerGuardIsSubsumed(layers);
    if !CheckValidationLayersSupport(layers) then Failure(MissingValidationLayer)
    else Success(REQUIRED_VALIDATION_LAYERS)
  }
}

=== FILE: queue_families.dfy ===
/** Queue-family resolution: an indexed scan over the device's queue
    families that records a graphics-capable and a present-capable family
    and stops as soon as both are known.  A capable family seen later in the
    scan overwrites the index recorded earlier, so the graphics index is the
    LAST graphics family up to the stop point, not the first. */
module QueueFamilies {
  import opened Wrappers
  import opened Vk

  datatype Capability = Graphics | Present

  /** A family can serve `kind`: it has queues and the graphics flag, or it
      has queues and can present to the surface. */
  predicate Supports(family: QueueFamily, kind: Capability) {
    && family.queueCount > 0
    && match kind
       case Graphics => family.queueFlags & QUEUE_GRAPHICS_BIT == QUEUE_GRAPHICS_BIT
       case Present => family.presentSupport
  }

  datatype QueueFamilyIndices = QueueFamilyIndices(graphicsFamily: Option<nat>, presentFamily: Option<nat>) {
    /** Both families are known. */
    predicate IsComplete() {
      graphicsFamily.Some? && presentFamily.Some?
    }
  }

  /** Some family among the first `n` can serve `kind`. */
  ghost predicate FoundBefore(families: seq<QueueFamily>, kind: Capability, n: nat) {
    exists i :: 0 <= i < n && i < |families| && Supports(families[i], kind)
  }

  /** After examining the first `n` families the scan has both indices. */
  ghost predicate PrefixComplete(families: seq<QueueFamily>, n: nat) {
    FoundBefore(families, Graphics, n) && FoundBefore(families, Present, n)
  }

  /** `idx` is the last family below `end` that serves `kind`, or None when
      none does. */
  ghost predicate IsLastBefore(families: seq<QueueFamily>, kind: Capability, idx: Option<nat>, end: nat)
    requires end <= |families|
  {
    match idx
    case Some(i) =>
      && i < end
      && Supports(families[i], kind)
      && forall k :: i < k < end ==> !Supports(families[k], kind)
    case None =>
      forall k :: 0 <= k < end ==> !Supports(families[k], kind)
  }

  /** `end` is where the scan stops: the shortest prefix holding both kinds
      of family, or the whole list when there is none. */
  ghost predicate ScanStopsAt(families: seq<QueueFamily>, end: nat) {
    && end <= |families|
    && (end == |families| || PrefixComplete(families, end))
    && forall k :: 0 <= k < end ==> !PrefixComplete(families, k)
  }

  /** How many families a scan that returned `r` has examined. */
  function Examined(families: seq<QueueFamily>, r: QueueFamilyIndices): nat {
    match r
    case QueueFamilyIndices(Some(g), Some(p)) => (if g < p then p else g) + 1
    case _ => |families|
  }

  /** The outcome of the scan, described without the scan. */
  ghost predicate ScanOutcome(families: seq<QueueFamily>, r: QueueFamilyIndices) {
    var end := Examined(families, r);
    && ScanStopsAt(families, end)
    && IsLastBefore(families, Graphics, r.graphicsFamily, end)
    && IsLastBefore(families, Present, r.presentFamily, end)
  }

  lemma LastBeforeMeansFound(families: seq<QueueFamily>, kind: Capability, idx: Option<nat>, end: nat)
    requires end <= |families|
    requires IsLastBefore(families, kind, idx, end)
    ensures idx.Some? <==> FoundBefore(families, kind, end)
  {
  }

  /** Examining family `i` keeps the recorded index the last capable one. */
  function Record(families: seq<QueueFamily>, kind: Capability, idx: Option<nat>, i: nat): (next: Option<nat>)
    requires i < |families|
    requires IsLastBefore(families, kind, idx, i)
    ensures IsLastBefore(families, kind, next, i + 1)
    ensures next.Some? <==> FoundBefore(families, kind, i + 1)
    ensures next != idx ==> next == Some(i)
  {
    LastBeforeMeansFound(families, kind, idx, i);
    var next := if Supports(families[i], kind) then Some(i) else idx;
    LastBeforeMeansFound(families, kind, next, i + 1);
    next
  }

  /** The scan examined families `0..i` without completing and completes on
      family `i`: it stops after `i + 1` families. */
  lemma CompletesAt(families: seq<QueueFamily>, i: nat, acc: QueueFamilyIndices, next: QueueFamilyIndices)
    requires i < |families|
    requires !acc.IsComplete() && next.IsComplete()
    requires next.graphicsFamily != acc.graphicsFamily ==> next.graphicsFamily == Some(i)
    requires next.presentFamily != acc.presentFamily ==> next.presentFamily == Some(i)
    requires next.graphicsFamily.value <= i && next.presentFamily.value <= i
    ensures Examined(families, next) == i + 1
  {
  }

  /** The scan from family `i` on, with `acc` the indices recorded so far. */
  function ScanFrom(families: seq<QueueFamily>, i: nat, acc: QueueFamilyIndices): (r: QueueFamilyIndices)
    requires i <= |families|
    requires IsLastBefore(families, Graphics, acc.graphicsFamily, i)
    requires IsLastBefore(families, Present, acc.presentFamily, i)
    requires forall k :: 0 <= k <= i ==> !PrefixComplete(families, k)
    ensures ScanOutcome(families, r)
    decreases |families| - i
  {
    LastBeforeMeansFound(families, Graphics, acc.graphicsFamily, i);
    LastBeforeMeansFound(families, Present, acc.presentFamily, i);
    assert !PrefixComplete(families, i);
    if i == |families| then acc
    else
      var next := QueueFamilyIndices(
        Record(families, Graphics, acc.graphicsFamily, i),
        Record(families, Present, acc.presentFamily, i));
      if next.IsComplete() then
        CompletesAt(families, i, acc, next);
        next
      else ScanFrom(families, i + 1, next)
  }

  /** `find_queue_family`: scan from index 0 with nothing recorded. */
  function FindQueueFamily(families: seq<QueueFamily>): (r: QueueFamilyIndices)
    ensures ScanOutcome(families, r)
  {
    ScanFrom(families, 0, QueueFamilyIndices(None, None))
  }

  /** A recorded index names an existing family that can serve its purpose. */
  lemma {:induction false} FoundFamiliesAreCapable(families: seq<QueueFamily>)
    ensures var r := FindQueueFamily(families);
      && (r.graphicsFamily.Some? ==>
            r.graphicsFamily.value < |families| && Supports(families[r.graphicsFamily.value], Graphics))
      && (r.presentFamily.Some? ==>
            r.presentFamily.value < |families| && Supports(families[r.presentFamily.value], Present))
  {
  }

  /** The scan's result is complete exactly when the device has some
      graphics-capable family and some present-capable family. */
  lemma {:induction false} CompleteIffBothExist(families: seq<QueueFamily>)
    ensures FindQueueFamily(families).IsComplete() <==>
      (exists i :: 0 <= i < |families| && Supports(families[i], Graphics)) &&
      (exists j :: 0 <= j < |families| && Supports(families[j], Present))
  {
  }

  /** A complete result stops at the first index where both are set; the
      graphics index is the last graphics family up to that index, so an
      earlier graphics family is passed over when a later one comes first
      to completion. */
  lemma {:induction false} GraphicsIndexIsLastBeforeStop(families: seq<QueueFamily>)
    requires FindQueueFamily(families).IsComplete()
    ensures var r := FindQueueFamily(families);
      var stop := if r.graphicsFamily.value < r.presentFamily.value then r.presentFamily.value else r.graphicsFamily.value;
      && (r.graphicsFamily.value == stop || r.presentFamily.value == stop)
      && (forall k :: r.graphicsFamily.value < k <= stop ==> !Supports(families[k], Graphics))
      && (forall k :: r.presentFamily.value < k <= stop ==> !Supports(families[k], Present))
      && (forall k :: 0 <= k <= stop ==> !PrefixComplete(families, k))
  {
  }

  /** The scan's outcome determines the indices: no other pair of indices
      meets the description. */
  lemma {:induction false} ScanOutcomeIsUnique(families: seq<QueueFamily>, r: QueueFamilyIndices)
    requires ScanOutcome(families, r)
    ensures r == FindQueueFamily(families)
  {
  }
}

=== FILE: scenarios.dfy ===
/** Concrete situations worked through the model: the extent and image
    count examples, a three-family device, and a device list where only the
    third device qualifies. */
module Scenarios {
  import opened Wrappers
  import opened Vk
  import opened NameChecks
  import opened QueueFamilies
  import opened DeviceSelection
  import opened Swapchain

  function Caps(current: Extent2D, lo: Extent2D, hi: Extent2D, minCount: U32, maxCount: U32): SurfaceCapabilities {
    SurfaceCapabilities(minCount, maxCount, current, lo, hi, 0)
  }

  /** An undefined current extent yields the window size when it fits; a
      defined one is used whatever the bounds say. */
  lemma ExtentExamples()
    ensures ChooseSwapExtent(Caps(Extent2D(U32_MAX, U32_MAX), Extent2D(100, 100), Extent2D(2000, 2000), 2, 0))
      == Extent2D(800, 600)
    ensures ChooseSwapExtent(Caps(Extent2D(1024, 768), Extent2D(100, 100), Extent2D(200, 200), 2, 0))
      == Extent2D(1024, 768)
    ensures ChooseSwapExtent(Caps(Extent2D(U32_MAX, 5), Extent2D(100, 700), Extent2D(640, 900), 2, 0))
      == Extent2D(640, 700)
  {
  }

  lemma ImageCountExamples()
    ensures ImageCount(Caps(Extent2D(1, 1), Extent2D(1, 1), Extent2D(1, 1), 2, 0)) == 3
    ensures ImageCount(Caps(Extent2D(1, 1), Extent2D(1, 1), Extent2D(1, 1), 2, 2)) == 2
  {
  }

  const NONE_FAMILY: QueueFamily := QueueFamily(0, 1, false)
  const GRAPHICS_FAMILY: QueueFamily := QueueFamily(QUEUE_GRAPHICS_BIT, 1, false)
  const PRESENT_FAMILY: QueueFamily := QueueFamily(0, 1, true)
  const BOTH_FAMILY: QueueFamily := QueueFamily(QUEUE_GRAPHICS_BIT, 1, true)

  /** Graphics on family 1 and present on family 2 give distinct indices and
      concurrent sharing; one family doing both gives exclusive sharing. */
  lemma QueueFamilyExamples()
    ensures FindQueueFamily([NONE_FAMILY, GRAPHICS_FAMILY, PRESENT_FAMILY]) == QueueFamilyIndices(Some(1), Some(2))
    ensures ChooseSharingMode(QueueFamilyIndices(Some(1), Some(2))) == Success(Concurrent([1, 2]))
    ensures FindQueueFamily([BOTH_FAMILY, GRAPHICS_FAMILY, PRESENT_FAMILY]) == QueueFamilyIndices(Some(0), Some(0))
    ensures ChooseSharingMode(QueueFamilyIndices(Some(0), Some(0))) == Success(Exclusive)
  {
    ScanOutcomeIsUnique([NONE_FAMILY, GRAPHICS_FAMILY, PRESENT_FAMILY], QueueFamilyIndices(Some(1), Some(2)));
    ScanOutcomeIsUnique([BOTH_FAMILY, GRAPHICS_FAMILY, PRESENT_FAMILY], QueueFamilyIndices(Some(0), Some(0)));
  }

  /** A later graphics family replaces an earlier one while the present
      family is still missing. */
  lemma GraphicsIndexIsOverwritten()
    ensures FindQueueFamily([GRAPHICS_FAMILY, GRAPHICS_FAMILY, PRESENT_FAMILY]) == QueueFamilyIndices(Some(1), Some(2))
  {
    ScanOutcomeIsUnique([GRAPHICS_FAMILY, GRAPHICS_FAMILY, PRESENT_FAMILY], QueueFamilyIndices(Some(1), Some(2)));
  }

  const ADEQUATE: SwapChainSupportDetails :=
    SwapChainSupportDetails(Caps(Extent2D(800, 600), Extent2D(1, 1), Extent2D(4096, 4096), 2, 8),
      [PREFERRED_FORMAT], [PRESENT_MODE_FIFO])

  /** No swapchain extension; its surface query would fail but is not made. */
  const NO_EXTENSION: PhysicalDevice :=
    PhysicalDevice(PHYSICAL_DEVICE_TYPE_DISCRETE_GPU, [BOTH_FAMILY], Some(["VK_KHR_maintenance1"]), None)
  /** No present-capable family. */
  const NO_PRESENT: PhysicalDevice :=
    PhysicalDevice(PHYSICAL_DEVICE_TYPE_INTEGRATED_GPU, [GRAPHICS_FAMILY], Some(DEVICE_EXTENSIONS), Some(ADEQUATE))
  const GOOD: PhysicalDevice :=
    PhysicalDevice(PHYSICAL_DEVICE_TYPE_CPU, [GRAPHICS_FAMILY, PRESENT_FAMILY], Some(DEVICE_EXTENSIONS), Some(ADEQUATE))
  /** Would panic if it were ever judged. */
  const UNKNOWN_TYPE: PhysicalDevice :=
    PhysicalDevice(7, [BOTH_FAMILY], Some(DEVICE_EXTENSIONS), Some(ADEQUATE))

  /** Only the third device qualifies; it is chosen and the fourth, whose
      judgement would panic, is never looked at. */
  lemma ThirdDeviceIsPicked()
    ensures PickPhysicalDevice([NO_EXTENSION, NO_PRESENT, GOOD, UNKNOWN_TYPE]) == Success(2)
    ensures PickPhysicalDevice([NO_EXTENSION, NO_PRESENT, UNKNOWN_TYPE, GOOD]) == Failure(UnknownDeviceType(7))
  {
    assert "VK_KHR_swapchain" !in ["VK_KHR_maintenance1"];
    assert IsDeviceSuitable(NO_EXTENSION) == Success(false);
    assert !Supports(GRAPHICS_FAMILY, Present);
    assert IsDeviceSuitable(NO_PRESENT) == Success(false);
    assert Supports(GOOD.queueFamilies[0], Graphics) && Supports(GOOD.queueFamilies[1], Present);
    assert IsDeviceSuitable(GOOD) == Success(true);
    var picked := [NO_EXTENSION, NO_PRESENT, GOOD, UNKNOWN_TYPE];
    assert PickFrom(picked, 2) == Success(2);
    assert PickFrom(picked, 0) == PickFrom(picked, 1) == PickFrom(picked, 2);
    var panicked := [NO_EXTENSION, NO_PRESENT, UNKNOWN_TYPE, GOOD];
    assert PickFrom(panicked, 2) == Failure(UnknownDeviceType(7));
    assert PickFrom(panicked, 0) == PickFrom(panicked, 1) == PickFrom(panicked, 2);
  }
}

=== FILE: swapchain.dfy ===
/** Swapchain negotiation: the selection rules `create_swapchain` applies to
    the surface report (format, present mode, extent, image count) and to the
    queue families (sharing mode).  The rules follow `VkSurfaceCapabilitiesKHR`
    and `VkPresentModeKHR` in the Surface Queries and WSI Swapchain sections of
    the Window System Integration chapter of the Vulkan 1.1 specification. */
module Swapchain {
  import opened Wrappers
  import opened Vk
  import opened QueueFamilies

  const PREFERRED_FORMAT: SurfaceFormat := SurfaceFormat(FORMAT_R8G8B8A8_UNORM, COLOR_SPACE_SRGB_NONLINEAR)

  predicate IsPreferred(f: SurfaceFormat) {
    f.format == FORMAT_R8G8B8A8_UNORM && f.colorSpace == COLOR_SPACE_SRGB_NONLINEAR
  }

  /** The first preferred format of the list, if any. */
  function FindPreferredFormat(formats: seq<SurfaceFormat>): (r: Option<SurfaceFormat>)
    ensures r.Some? ==> r.value in formats && IsPreferred(r.value)
    ensures r.None? ==> forall f :: f in formats ==> !IsPreferred(f)
  {
    if |formats| == 0 then None
    else if IsPreferred(formats[0]) then Some(formats[0])
    else FindPreferredFormat(formats[1..])
  }

  /** `choose_swapchain_format`: the R8G8B8A8_UNORM / SRGB_NONLINEAR pair when
      the surface offers it, otherwise the first format offered; an empty
      list makes the `unwrap` panic. */
  function ChooseSwapchainFormat(formats: seq<SurfaceFormat>): (r: Result<SurfaceFormat, Fatal>)
    ensures r.Failure? <==> |formats| == 0
    ensures r.Failure? ==> r.error == NoSurfaceFormat
    ensures r.Success? ==> r.value in formats
    ensures PREFERRED_FORMAT in formats ==> r == Success(PREFERRED_FORMAT)
    ensures |formats| > 0 && PREFERRED_FORMAT !in formats ==> r == Success(formats[0])
  {
    match FindPreferredFormat(formats)
    case Some(f) => Success(f)
    case None => if |formats| == 0 then Failure(NoSurfaceFormat) else Success(formats[0])
  }

  /** `choose_swapchain_present_mode`: MAILBOX exactly when the surface
      offers it, otherwise FIFO, which every implementation supports (so an
      empty list is no error). */
  function ChooseSwapchainPresentMode(modes: seq<PresentMode>): (r: PresentMode)
    ensures r == PRESENT_MODE_MAILBOX <==> PRESENT_MODE_MAILBOX in modes
    ensures r != PRESENT_MODE_MAILBOX ==> r == PRESENT_MODE_FIFO
  {
    if |modes| == 0 then PRESENT_MODE_FIFO
    else if modes[0] == PRESENT_MODE_MAILBOX then modes[0]
    else ChooseSwapchainPresentMode(modes[1..])
  }

  /** `v` is `preferred` clamped into `[lo, hi]`, and `hi` when the range is
      empty (the upper bound is applied last). */
  ghost predicate ClampedInto(lo: int, preferred: int, hi: int, v: int) {
    if lo <= hi then
      && lo <= v <= hi
      && (lo <= preferred <= hi ==> v == preferred)
      && (preferred < lo ==> v == lo)
      && (hi < preferred ==> v == hi)
    else v == hi
  }

  function Max(a: U32, b: U32): U32 { if a < b then b else a }
  function Min(a: U32, b: U32): U32 { if a < b then a else b }

  /** One axis of the extent: `min.max(preferred).min(max)`. */
  function ClampAxis(lo: U32, preferred: U32, hi: U32): (v: U32)
    ensures ClampedInto(lo, preferred, hi, v)
  {
    Min(Max(lo, preferred), hi)
  }

  /** `choose_swap_extent`: the current extent verbatim when its width is
      defined (only the width is compared with the sentinel); otherwise the
      window size clamped per axis into the surface's extent range. */
  function ChooseSwapExtent(caps: SurfaceCapabilities): (r: Extent2D)
    ensures caps.currentExtent.width != U32_MAX ==> r == caps.currentExtent
    ensures caps.currentExtent.width == U32_MAX ==>
      && ClampedInto(caps.minImageExtent.width, WIDTH, caps.maxImageExtent.width, r.width)
      && ClampedInto(caps.minImageExtent.height, HEIGHT, caps.maxImageExtent.height, r.height)
  {
    if caps.currentExtent.width != U32_MAX then caps.currentExtent
    else Extent2D(
      ClampAxis(caps.minImageExtent.width, WIDTH, caps.maxImageExtent.width),
      ClampAxis(caps.minImageExtent.height, HEIGHT, caps.maxImageExtent.height))
  }

  /** Image count: one more than the minimum, lowered to a nonzero maximum
      (zero means "no limit").  The request is never zero, never above a
      nonzero maximum, and, when the surface's bounds are consistent, never
      below the minimum. */
  function ImageCount(caps: SurfaceCapabilities): (count: U32)
    requires caps.minImageCount < U32_MAX
    ensures caps.maxImageCount == 0 ==> count == caps.minImageCount + 1
    ensures caps.maxImageCount > 0 && caps.minImageCount < caps.maxImageCount ==> count == caps.minImageCount + 1
    ensures caps.maxImageCount > 0 && caps.minImageCount >= caps.maxImageCount ==> count == caps.maxImageCount
    ensures 1 <= count <= caps.minImageCount + 1
    ensures caps.maxImageCount == 0 || caps.minImageCount <= caps.maxImageCount ==> caps.minImageCount <= count
  {
    var count := caps.minImageCount + 1;
    if caps.maxImageCount > 0 && count > caps.maxImageCount then caps.maxImageCount
    else count
  }

  /** Who may use the swapchain images: one queue family, or the listed
      families concurrently. */
  datatype SharingMode = Exclusive | Concurrent(queueFamilyIndices: seq<nat>)

  /** Sharing mode: the two optional indices are compared as they are;
      differing ones are unwrapped, which panics when one of them is missing. */
  function ChooseSharingMode(indices: QueueFamilyIndices): (r: Result<SharingMode, Fatal>)
    ensures r == Success(Exclusive) <==> indices.graphicsFamily == indices.presentFamily
    ensures r.Success? && r.value.Concurrent? ==>
      && indices.IsComplete()
      && r.value.queueFamilyIndices == [indices.graphicsFamily.value, indices.presentFamily.value]
      && r.value.queueFamilyIndices[0] != r.value.queueFamilyIndices[1]
    ensures r.Failure? <==> indices.graphicsFamily != indices.presentFamily && !indices.IsComplete()
  {
    if indices.graphicsFamily != indices.presentFamily then
      match (indices.graphicsFamily, indices.presentFamily)
      case (Some(g), Some(p)) => Success(Concurrent([g, p]))
      case _ => Failure(MissingQueueFamily)
    else Success(Exclusive)
  }

  /** The parts of `VkSwapchainCreateInfoKHR` that the negotiation decides
      (image usage, composite alpha, array layers and clipping are constants
      of the call and not modelled). */
  datatype SwapchainCreateInfo = SwapchainCreateInfo(
    minImageCount: U32,
    imageFormat: Format,
    imageColorSpace: ColorSpace,
    imageExtent: Extent2D,
    preTransform: bv32,
    presentMode: PresentMode,
    sharing: SharingMode)

  /** The surface report may be used for a swapchain request. */
  predicate CountFits(support: Option<SwapChainSupportDetails>) {
    support.Some? ==> support.value.capabilities.minImageCount < U32_MAX
  }

  /** `create_swapchain` up to the driver call: query the surface (a failed
      query panics), choose format, present mode, extent and image count,
      re-run the queue-family scan and choose the sharing mode. */
  function SwapchainRequest(support: Option<SwapChainSupportDetails>, families: seq<QueueFamily>): (r: Result<SwapchainCreateInfo, Fatal>)
    requires CountFits(support)
    ensures r.Success? <==>
      && support.Some? && |support.value.formats| > 0
      && (var indices := FindQueueFamily(families);
          indices.graphicsFamily == indices.presentFamily || indices.IsComplete())
    ensures r.Success? ==>
      && SurfaceFormat(r.value.imageFormat, r.value.imageColorSpace) in support.value.formats
      && (r.value.presentMode == PRESENT_MODE_MAILBOX <==> PRESENT_MODE_MAILBOX in support.value.presentModes)
      && (r.value.presentMode == PRESENT_MODE_MAILBOX || r.value.presentMode == PRESENT_MODE_FIFO)
      && (PREFERRED_FORMAT in support.value.formats ==>
            r.value.imageFormat == FORMAT_R8G8B8A8_UNORM && r.value.imageColorSpace == COLOR_SPACE_SRGB_NONLINEAR)
      && (support.value.capabilities.currentExtent.width != U32_MAX ==>
            r.value.imageExtent == support.value.capabilities.currentExtent)
      && 1 <= r.value.minImageCount <= support.value.capabilities.minImageCount + 1
      && r.value.preTransform == support.value.capabilities.currentTransform
    ensures r.Success? ==>
      && r.value.minImageCount == ImageCount(support.value.capabilities)
      && r.value.imageExtent == ChooseSwapExtent(support.value.capabilities)
      && ChooseSwapchainFormat(support.value.formats) == Success(SurfaceFormat(r.value.imageFormat, r.value.imageColorSpace))
      && (r.value.sharing == Exclusive <==> FindQueueFamily(families).graphicsFamily == FindQueueFamily(families).presentFamily)
      && r.value.sharing == ChooseSharingMode(FindQueueFamily(families)).value
    ensures r.Success? && r.value.sharing.Concurrent? ==>
      var fs := r.value.sharing.queueFamilyIndices;
      && |fs| == 2 && fs[0] != fs[1]
      && fs[0] < |families| && Supports(families[fs[0]], Graphics)
      && fs[1] < |families| && Supports(families[fs[1]], Present)
  {
    match support
    case None => Failure(SurfaceQueryFailed)
    case Some(s) =>
      match ChooseSwapchainFormat(s.formats)
      case Failure(e) => Failure(e)
      case Success(surfaceFormat) =>
        var presentMode := ChooseSwapchainPresentMode(s.presentModes);
        var extent := ChooseSwapExtent(s.capabilities);
        var imageCount := ImageCount(s.capabilities);
        var indices := FindQueueFamily(families);
        FoundFamiliesAreCapable(families);
        match ChooseSharingMode(indices)
        case Failure(e) => Failure(e)
        case Success(sharing) =>
          Success(SwapchainCreateInfo(
            imageCount, surfaceFormat.format, surfaceFormat.colorSpace, extent,
            s.capabilities.currentTransform, presentMode, sharing))
  }
}

=== FILE: teardown.dfy ===
/** Teardown of the application object as a state machine over destroy
    events.  The state is the set of live resources; destroying a resource is
    allowed only while it is live and after every resource created from it is
    gone.  `Drop for VulkanApp` is one fixed sequence of events. */
module Teardown {
  import opened Wrappers

  datatype Resource = Swapchain | Device | Surface | DebugMessenger | Instance

  /** `child` was created from `parent` and must be destroyed first: the
      swapchain from the device and for the surface; the device (through its
      physical device), the surface and the debug messenger from the
      instance. */
  predicate CreatedFrom(child: Resource, parent: Resource) {
    || (child == Swapchain && (parent == Device || parent == Surface))
    || (parent == Instance && (child == Device || child == Surface || child == DebugMessenger))
  }

  const ALL_RESOURCES: set<Resource> := {Swapchain, Device, Surface, DebugMessenger, Instance}

  datatype TeardownError = AlreadyDestroyed(resource: Resource) | ChildStillAlive(resource: Resource)

  /** One destroy event. */
  function Destroy(live: set<Resource>, r: Resource): (next: Result<set<Resource>, TeardownError>)
    ensures next.Success? <==> r in live && forall c :: c in live ==> !CreatedFrom(c, r)
    ensures next.Success? ==> next.value == live - {r}
  {
    if r !in live then Failure(AlreadyDestroyed(r))
    else if exists c :: c in live && CreatedFrom(c, r) then Failure(ChildStillAlive(r))
    else Success(live - {r})
  }

  /** A sequence of destroy events, stopping at the first illegal one. */
  function Run(live: set<Resource>, events: seq<Resource>): Result<set<Resource>, TeardownError>
  {
    if |events| == 0 then Success(live)
    else
      match Destroy(live, events[0])
      case Failure(e) => Failure(e)
      case Success(next) => Run(next, events[1..])
  }

  /** A legal teardown of `live`: no resource is destroyed twice or when not
      live, and a resource is destroyed only after each live resource created
      from it. */
  ghost predicate LegalOrder(live: set<Resource>, events: seq<Resource>) {
    && (forall i :: 0 <= i < |events| ==> events[i] in live)
    && (forall i, j :: 0 <= i < j < |events| ==> events[i] != events[j])
    && (forall i, c :: 0 <= i < |events| && c in live && CreatedFrom(c, events[i]) ==> c in events[..i])
  }

  /** The resources a sequence of events names. */
  function Named(events: seq<Resource>): (named: set<Resource>)
    ensures forall r :: r in named <==> r in events
  {
    if |events| == 0 then {} else {events[0]} + Named(events[1..])
  }

  /** A legal order starts with a legal destroy and goes on legally. */
  lemma LegalOrderSplits(live: set<Resource>, events: seq<Resource>)
    requires |events| > 0 && LegalOrder(live, events)
    ensures Destroy(live, events[0]).Success?
    ensures LegalOrder(live - {events[0]}, events[1..])
  {
    var r, rest, next := events[0], events[1..], live - {events[0]};
    assert forall c :: c in live ==> !CreatedFrom(c, r) by {
      assert events[..0] == [];
    }
    forall i, c | 0 <= i < |rest| && c in next && CreatedFrom(c, rest[i])
      ensures c in rest[..i]
    {
      assert rest[i] == events[i + 1];
      assert c in events[..i + 1];
      assert events[..i + 1] == [r] + rest[..i];
    }
  }

  /** A legal destroy followed by a legal order is a legal order. */
  lemma LegalOrderJoins(live: set<Resource>, events: seq<Resource>)
    requires |events| > 0
    requires Destroy(live, events[0]).Success?
    requires LegalOrder(live - {events[0]}, events[1..])
    ensures LegalOrder(live, events)
  {
    var r, rest, next := events[0], events[1..], live - {events[0]};
    forall i, j | 0 <= i < j < |events|
      ensures events[i] != events[j]
    {
      assert events[j] == rest[j - 1];
      if i == 0 {
        assert events[j] in next;
      } else {
        assert events[i] == rest[i - 1];
      }
    }
    forall i, c | 0 <= i < |events| && c in live && CreatedFrom(c, events[i])
      ensures c in events[..i]
    {
      if i > 0 {
        assert events[i] == rest[i - 1];
        assert events[..i] == [r] + rest[..i - 1];
        if c != r {
          assert c in next;
        }
      }
    }
  }

  /** The state machine accepts exactly the legal orders, and leaves alive
      what was not destroyed. */
  lemma {:induction false} RunAcceptsLegalOrders(live: set<Resource>, events: seq<Resource>)
    ensures Run(live, events).Success? <==> LegalOrder(live, events)
    ensures Run(live, events).Success? ==> Run(live, events).value == live - Named(events)
    decreases |events|
  {
    if |events| > 0 {
      RunAcceptsLegalOrders(live - {events[0]}, events[1..]);
      if LegalOrder(live, events) {
        LegalOrderSplits(live, events);
      }
      if Destroy(live, events[0]).Success? && LegalOrder(live - {events[0]}, events[1..]) {
        LegalOrderJoins(live, events);
      }
    }
  }

  /** Every resource is one of the five. */
  lemma AllResourcesListed(r: Resource)
    ensures r in ALL_RESOURCES
  {
  }

  /** The destroy calls of `Drop for VulkanApp`, in order. */
  const DROP_ORDER: seq<Resource> := [Swapchain, Device, Surface, DebugMessenger, Instance]

  /** Dropping the application destroys every resource exactly once, each
      after everything created from it, and leaves nothing alive. */
  lemma DropIsLegalTeardown()
    ensures LegalOrder(ALL_RESOURCES, DROP_ORDER)
    ensures forall r :: r in ALL_RESOURCES <==> r in DROP_ORDER
    ensures Run(ALL_RESOURCES, DROP_ORDER) == Success({})
  {
    var s1 := ALL_RESOURCES - {Swapchain};
    var s2 := s1 - {Device};
    var s3 := s2 - {Surface};
    var s4 := s3 - {DebugMessenger};
    assert Destroy(ALL_RESOURCES, Swapchain) == Success(s1);
    assert Destroy(s1, Device) == Success(s2);
    assert Destroy(s2, Surface) == Success(s3);
    assert Destroy(s3, DebugMessenger) == Success(s4);
    assert s4 == {Instance};
    assert s4 - {Instance} == {};
    assert Destroy(s4, Instance) == Success({});
    assert Run(s4, [Instance]) == Success({});
    assert Run(s3, [DebugMessenger, Instance]) == Success({});
    assert Run(s2, [Surface, DebugMessenger, Instance]) == Success({});
    assert Run(s1, [Device, Surface, DebugMessenger, Instance]) == Success({});
    assert Run(ALL_RESOURCES, DROP_ORDER) == Success({});
    RunAcceptsLegalOrders(ALL_RESOURCES, DROP_ORDER);
  }

  /** A teardown that destroys each of the five resources once succeeds
      exactly when every resource comes after everything created from it. */
  lemma {:induction false} CompleteTeardownOrders(events: seq<Resource>)
    requires forall r :: r in events
    requires forall i, j :: 0 <= i < j < |events| ==> events[i] != events[j]
    ensures Run(ALL_RESOURCES, events) == Success({}) <==>
      forall i, j :: 0 <= i < |events| && 0 <= j < |events| && CreatedFrom(events[i], events[j]) ==> i < j
  {
    RunAcceptsLegalOrders(ALL_RESOURCES, events);
    forall r
      ensures r in ALL_RESOURCES
    {
      AllResourcesListed(r);
    }
    assert ALL_RESOURCES - Named(events) == {};
    if Run(ALL_RESOURCES, events).Success? {
      forall i, j | 0 <= i < |events| && 0 <= j < |events| && CreatedFrom(events[i], events[j])
        ensures i < j
      {
        assert events[i] in events[..j];
      }
    } else {
      assert !LegalOrder(ALL_RESOURCES, events);
      var i, c :| 0 <= i < |events| && CreatedFrom(c, events[i]) && c !in events[..i];
      assert c in events;
      var k :| 0 <= k < |events| && events[k] == c;
      assert k >= i;
      assert !(k < i);
    }
  }
}

=== FILE: vk.dfy ===
/** Value types of the Vulkan API that the bootstrap decisions look at, the
    enum constants they compare against, and the fatal conditions the program
    panics with.  Handles and loader objects are not values here: the model
    only sees what the driver queries return. */
module Vk {

  /** A Vulkan `uint32_t`. */
  type U32 = x: int | 0 <= x <= U32_MAX

  /** `u32::max_value()`: also the "undefined extent" sentinel of
      `VkSurfaceCapabilitiesKHR::currentExtent`. */
  const U32_MAX: int := 0xFFFF_FFFF

  /** Requested window size, used when the surface leaves the extent to the
      application. */
  const WIDTH: U32 := 800
  const HEIGHT: U32 := 600

  /** `VkFormat`, `VkColorSpaceKHR` and `VkPresentModeKHR` are C enums; the
      model keeps their numeric codes so that any value a driver reports can
      be represented. */
  type Format = int
  type ColorSpace = int
  type PresentMode = int

  const FORMAT_R8G8B8A8_UNORM: Format := 37
  const COLOR_SPACE_SRGB_NONLINEAR: ColorSpace := 0

  const PRESENT_MODE_MAILBOX: PresentMode := 1
  const PRESENT_MODE_FIFO: PresentMode := 2

  /** `VkQueueFlags` bitmask and its graphics bit. */
  type QueueFlags = bv32
  const QUEUE_GRAPHICS_BIT: QueueFlags := 0x1

  /** `VkPhysicalDeviceType`: the five values the device report can match. */
  const PHYSICAL_DEVICE_TYPE_OTHER: int := 0
  const PHYSICAL_DEVICE_TYPE_INTEGRATED_GPU: int := 1
  const PHYSICAL_DEVICE_TYPE_DISCRETE_GPU: int := 2
  const PHYSICAL_DEVICE_TYPE_VIRTUAL_GPU: int := 3
  const PHYSICAL_DEVICE_TYPE_CPU: int := 4

  predicate KnownDeviceType(code: int) {
    PHYSICAL_DEVICE_TYPE_OTHER <= code <= PHYSICAL_DEVICE_TYPE_CPU
  }

  datatype Extent2D = Extent2D(width: U32, height: U32)

  datatype SurfaceFormat = SurfaceFormat(format: Format, colorSpace: ColorSpace)

  /** The fields of `VkSurfaceCapabilitiesKHR` the swapchain set-up reads.
      `currentTransform` is passed through untouched. */
  datatype SurfaceCapabilities = SurfaceCapabilities(
    minImageCount: U32,
    maxImageCount: U32,
    currentExtent: Extent2D,
    minImageExtent: Extent2D,
    maxImageExtent: Extent2D,
    currentTransform: bv32)

  /** What `query_swapchain_support` collects for one device/surface pair. */
  datatype SwapChainSupportDetails = SwapChainSupportDetails(
    capabilities: SurfaceCapabilities,
    formats: seq<SurfaceFormat>,
    presentModes: seq<PresentMode>)

  /** One `VkQueueFamilyProperties` entry together with the answer of
      `vkGetPhysicalDeviceSurfaceSupportKHR` for that family index and the
      bound surface. */
  datatype QueueFamily = QueueFamily(queueFlags: QueueFlags, queueCount: U32, presentSupport: bool)

  /** The conditions under which the bootstrap panics. */
  datatype Fatal =
    | MissingValidationLayer
    | UnknownDeviceType(code: int)
    | ExtensionQueryFailed
    | SurfaceQueryFailed
    | NoSuitableDevice
    | NoSurfaceFormat
    | MissingQueueFamily
}

=== FILE: wrappers.dfy ===
/** Option and Result: the two shapes the bootstrap code returns (a possibly
    missing queue-family index, and a value or the fatal condition that makes
    the program panic). */
module Wrappers {

  datatype Option<+T> = None | Some(value: T)

  datatype Result<+R, +E> = Success(value: R) | Failure(error: E)
}
